=== FILE: README.md ===
# Talent directory backend — Dafny model

This project models the two route modules at the core of the talent-directory
backend.

**Collaboration requests** (`routes/collaboration.js`). A user sends another user a
collaboration request. The receiver accepts or rejects it, and the sender may
delete it. Each user can list the requests they received and the requests they
sent, and can count the ones still pending for them.

**Talent directory** (`routes/talents.js`). A logged-in user creates talent
profiles with skills, languages and projects. They update and delete the
profiles they own, and mark or unmark any profile as a favorite. Anyone reads a
profile enriched with its tags and projects, or lists profiles filtered by skill
and verification.

Every handler is a pure function from the tables it touches to either the new
tables or the error it answers. The tables are immutable Dafny values:
- `collaboration_requests` is a map from request id to record;
- `skills` and `languages` are name-to-id maps;
- the link tables and `favorites` are sets of pairs, because their primary key
  is the whole pair;
- `talents` and `projects` are maps from id to row.

AUTOINCREMENT is a counter stored beside each map. Since ids are never reused,
the model orders by id where the handlers order by `created_at`.

Files:
- `common.dfy` (module `Common`): the result and error types, and the
  whitespace trimming of the request validators.
- `collaboration.dfy` (module `Collaboration`): the request store, its handlers,
  its invariant, and the handlers run as a system.
- `tags.dfy` (module `Tags`): the find-or-create tag tables and their link sets.
- `talents.dfy` (module `Talents`): the directory, create, update, delete,
  favorites, `enrichTalent` and the listing filter.

Points where the code decides the behaviour:
- **The trimmed text is stored on creation.** The validators' `trim()` is a
  sanitizer. When a request or a talent is created, the request message and
  the talent's name, bio and location are kept without their surrounding
  whitespace (JavaScript `\s`); `Trim` models this. PUT /:id has no
  validators, so an update stores its fields as given, and `Merge` does not
  trim.
- **Deleting a talent removes only its row.** The schema declares
  `ON DELETE CASCADE` on links, projects and favorites, but foreign-key
  enforcement is never switched on. The talent's link, project and favorite
  rows therefore stay behind.
- **An empty list clears tags on update.** PUT replaces the skills (or
  languages) whenever the field is truthy. An empty array is truthy, so it
  clears them; only an absent field keeps them.

## Model

| member | source | states |
|---|---|---|
| Common.Trim | carte_talents/backend/routes/collaboration.js:11 | the stored text is a contiguous slice of the input, everything cut off before and after it is whitespace, and it has no whitespace at either end: exactly the input with its leading and trailing whitespace removed |
| Common.TrimBlank | carte_talents/backend/routes/collaboration.js:11 | a field trims to the empty string exactly when every character of it is whitespace, which is what the non-empty check after trimming rejects |
| Common.TrimIdempotent | carte_talents/backend/routes/collaboration.js:11 | trimming text that has already been trimmed changes nothing |
| Collaboration.Create | carte_talents/backend/routes/collaboration.js:9-53 | the four refusals in handler order (BadInput for a non-integer receiver or a blank message, NotFound for an unknown receiver, SelfRequest, AlreadyPending when the pair already has a pending request), each stated as an if-and-only-if; the send succeeds exactly when none of them applies, and then adds one new pending record holding the trimmed message under the id the counter held (fresh in a well-numbered store), with the counter advanced past it |
| Collaboration.CreateKeepsValid | carte_talents/backend/routes/collaboration.js:29-46 | a successful send keeps the invariant: ids below the counter, at most one pending request per ordered pair, sender different from receiver, message trimmed and non-empty |
| Collaboration.Decide | carte_talents/backend/routes/collaboration.js:133-149 | guards in order: NotFound, Forbidden unless the caller is the receiver, AlreadyHandled unless pending; on success only that record's status changes, to the decision's outcome, and the invariant is kept |
| Collaboration.AcceptRequest | carte_talents/backend/routes/collaboration.js:130-158 | accepting succeeds exactly for a pending request addressed to the caller, and leaves it accepted |
| Collaboration.RejectRequest | carte_talents/backend/routes/collaboration.js:161-189 | rejecting succeeds exactly for a pending request addressed to the caller, and leaves it rejected |
| Collaboration.Remove | carte_talents/backend/routes/collaboration.js:192-213 | NotFound and Forbidden (unless the caller is the sender) as if-and-only-ifs; the delete succeeds exactly for the sender of an existing request, whatever its status; on success exactly that id disappears and every other record is unchanged |
| Collaboration.ListReceived | carte_talents/backend/routes/collaboration.js:64-72 | every row is a stored request addressed to the user, every such request is listed, and rows are newest first |
| Collaboration.ListSent | carte_talents/backend/routes/collaboration.js:99-105 | every row is a stored request sent by the user, every such request is listed, and rows are newest first |
| Collaboration.CountPending | carte_talents/backend/routes/collaboration.js:118-122 | the count equals the number of stored requests that are addressed to the user and still pending |
| Collaboration.DecideLowersCount | carte_talents/backend/routes/collaboration.js:118-122 | accepting or rejecting lowers the receiver's pending count by exactly one and leaves every other user's count alone |
| Collaboration.CreateRaisesCount | carte_talents/backend/routes/collaboration.js:43-46 | a successful send raises the receiver's pending count by exactly one |
| Collaboration.CreatedRequestListedFirst | carte_talents/backend/routes/collaboration.js:64-72 | a new request heads its receiver's inbox, with its trimmed message and pending status, and heads its sender's outbox |
| Collaboration.SecondDecisionRefused | carte_talents/backend/routes/collaboration.js:143-145 | once a request is accepted or rejected, any further decision on it is refused as already handled |
| Collaboration.DecidedPairNotPending | carte_talents/backend/routes/collaboration.js:34-41 | after a decision, its sender and receiver have no pending request left between them |
| Collaboration.RejectUnblocksResend | carte_talents/backend/routes/collaboration.js:34-41 | a pending request blocks a duplicate; after the receiver rejects it, the same sender can send again |
| Collaboration.ResolvedRequestsAreFinal | carte_talents/backend/routes/collaboration.js:143-149 | no handler moves a request back to pending, and no handler changes an accepted or rejected request other than by deleting it |
| Collaboration.RunKeepsValid | carte_talents/backend/routes/collaboration.js:9-213 | any sequence of handler calls keeps the invariant, refused calls included |
| Collaboration.ReachableValid | carte_talents/backend/routes/collaboration.js:34-41 | every store reached from the empty table holds at most one pending request per ordered pair |
| Tags.FindOrCreate | carte_talents/backend/routes/talents.js:139-144 | the name ends up in the table; a known name keeps its id and leaves the table unchanged; an unknown name gets the counter's id; ids stay distinct |
| Tags.LinkAll | carte_talents/backend/routes/talents.js:138-146 | the table only grows and keeps every old id, its names are exactly the old names plus the listed ones, and no existing link is lost |
| Tags.LinkAllLinks | carte_talents/backend/routes/talents.js:138-146 | the link set gains exactly the links from the owner to the listed names, under the ids of the resulting table |
| Tags.LinkAllValid | carte_talents/backend/routes/talents.js:139-144 | linking keeps tag ids distinct and below the table's counter |
| Tags.LinkAllNames | carte_talents/backend/routes/talents.js:138-146 | an owner with no links ends with exactly the set of listed names, however often a name repeats |
| Tags.LinkAllKeepsOthers | carte_talents/backend/routes/talents.js:138-146 | linking one owner does not change any other owner's names |
| Talents.CreateTalent | carte_talents/backend/routes/talents.js:112-165 | BadInput exactly when the name is blank or the email invalid, success exactly otherwise; the new row under the counter's id holds the caller as owner and the trimmed fields, and favorites are untouched |
| Talents.CreateTalentTags | carte_talents/backend/routes/talents.js:138-156 | the new talent carries exactly the body's skills and languages as sets, and no other talent's tags change |
| Talents.CreateTalentKeepsValid | carte_talents/backend/routes/talents.js:131-161 | creating a talent keeps the directory invariant: ids below their counters, distinct tag ids, links and projects pointing at handed-out ids |
| Talents.AddProjectsAt | carte_talents/backend/routes/talents.js:158-161 | the project loop inserts exactly the ids from the counter onwards, one per body project in body order, each holding the owner and that project's title and description; existing rows are kept |
| Talents.AddProjectsOwned | carte_talents/backend/routes/talents.js:158-161 | when no existing project belongs to the owner, the owner's rows after the loop are exactly the fresh ids, each holding the body project at the same position |
| Talents.CreateAddsProject | carte_talents/backend/routes/talents.js:158-161 | a project row belongs to the new talent exactly when it is one of the consecutive fresh ids, and then holds the matching body project |
| Talents.CreateKeepsOtherProfiles | carte_talents/backend/routes/talents.js:131-161 | POST / changes no other talent's profile: for every id other than the new one, GET /:id shows the same row, skills, languages and projects before and after |
| Talents.AddProjectsKeepsOthers | carte_talents/backend/routes/talents.js:158-161 | the project loop for one talent gives no row to any other talent and leaves that talent's existing rows as they were |
| Talents.SameRowsSameProfile | carte_talents/backend/routes/talents.js:9-44 | the enriched profile depends only on the talent's row, its skill and language links and its project rows: two directories that agree on these give the same profile |
| Talents.CreateThenEnrich | carte_talents/backend/routes/talents.js:164-165 | the created profile shows the caller as owner, the trimmed name, not verified, and exactly the body's skills and languages |
| Talents.CreateThenEnrichProjects | carte_talents/backend/routes/talents.js:158-165 | the created profile has a project under id k exactly when k is one of the fresh ids, and that project is the body project at the same position |
| Tags.Unlink | carte_talents/backend/routes/talents.js:196 | the `DELETE FROM talent_skills WHERE talent_id = ?` step: a link survives exactly when it belongs to another talent |
| Tags.UnlinkNames | carte_talents/backend/routes/talents.js:196 | after the delete the talent has no tag names, and every other talent keeps exactly its names |
| Talents.AddProjects | carte_talents/backend/routes/talents.js:158-161 | the project loop advances the project counter by exactly one per body project; `Talents.AddProjectsAt` states which rows it writes |
| Talents.Pick | carte_talents/backend/routes/talents.js:192 | the truthy fallback of the SET clause: a non-empty given value replaces the column, an absent or empty one keeps it |
| Talents.MergeIdempotent | carte_talents/backend/routes/talents.js:189-192 | applying the same update twice gives the same row as applying it once |
| Talents.TrimOpt | carte_talents/backend/routes/talents.js:115-116 | the stored `bio` or `location` is never NULL: a JSON null becomes the empty string, a given value is trimmed, and it is empty exactly when the given value is all whitespace |
| Talents.PickOpt | carte_talents/backend/routes/talents.js:192 | the same fallback for a nullable column: a non-empty given value replaces it, an absent or empty one keeps the stored value, NULL included |
| Talents.Merge | carte_talents/backend/routes/talents.js:189-192 | each of the six text columns takes the given value when it is truthy and keeps its stored value otherwise, untrimmed; the owner and the verification flag never change |
| Talents.Relink | carte_talents/backend/routes/talents.js:194-218 | an absent list leaves the tag table and links as they were; a given list only adds names to the table, keeping every existing id; `Talents.RelinkNames` states the resulting links |
| Talents.RelinkNames | carte_talents/backend/routes/talents.js:194-218 | after deleting a talent's links and relinking it, the talent carries exactly the given names, every other talent keeps its names, ids stay distinct and links stay within handed-out ids |
| Talents.EmptyFieldsKeepRow | carte_talents/backend/routes/talents.js:189-192 | an update whose fields are all absent or empty leaves the row exactly as it was |
| Talents.UpdateTalent | carte_talents/backend/routes/talents.js:176-192 | NotFound and Forbidden (unless the caller owns the talent) as if-and-only-ifs; the update succeeds exactly for the owner of an existing talent; on success only this row changes, to the merged row; projects, favorites and counters are untouched; an absent tag list leaves that tag table as it was |
| Talents.UpdateReplacesTags | carte_talents/backend/routes/talents.js:194-218 | a given list, empty included, replaces the talent's tag set by exactly its names; an absent list keeps the tag set; other talents' tags never change; the invariant is kept |
| Talents.UpdateThenEnrich | carte_talents/backend/routes/talents.js:189-222 | after an update, the profile shows the merged row with the same owner, verification and projects |
| Talents.DeleteTalent | carte_talents/backend/routes/talents.js:230-242 | NotFound and Forbidden as if-and-only-ifs; the delete succeeds exactly for the owner of an existing talent; on success only the talent row goes, and every other table is unchanged |
| Talents.DeletedTalentGone | carte_talents/backend/routes/talents.js:242 | after deletion the favorite rows stay, yet the talent is absent from every favorites listing, cannot be marked again and has no profile |
| Talents.AddFavorite | carte_talents/backend/routes/talents.js:297-305 | NotFound exactly for a missing talent, success exactly for an existing one; on success the favorite set becomes the old set plus this pair |
| Talents.RemoveFavorite | carte_talents/backend/routes/talents.js:315-318 | never fails and needs no existing talent; the favorite set loses exactly this pair |
| Talents.FavoritesIdempotent | carte_talents/backend/routes/talents.js:305 | marking twice is marking once, unmarking twice is unmarking once, and marking then unmarking a new favorite restores the directory |
| Talents.FavoriteTalents | carte_talents/backend/routes/talents.js:331-335 | lists exactly the existing talents the user has marked |
| Talents.Enrich | carte_talents/backend/routes/talents.js:35-44 | a missing row gives null; otherwise the row with `verified` coerced to a boolean, the talent's skill and language names, and exactly its projects |
| Talents.Filter | carte_talents/backend/routes/talents.js:65-84 | keeps the base rows in base order; a row is kept, as often as it occurs, exactly when it exists, is verified if `verified=true`, and has the skill if a skill is given |
| Talents.ListTalents | carte_talents/backend/routes/talents.js:65-89 | one profile per kept row, in the same order; each is the profile GET /:id shows for an existing talent, has the requested skill when a skill is given, and is verified when `verified=true` is given |
| Talents.ListTalentsComplete | carte_talents/backend/routes/talents.js:65-89 | a base row appears in the listing exactly when it exists and passes the skill and verification filters |
| Talents.ListTalentsUnfiltered | carte_talents/backend/routes/talents.js:65-89 | with neither filter, the listing has one profile per base row, in base order, each the talent's enriched profile |
| Talents.NoFilterKeepsAll | carte_talents/backend/routes/talents.js:65-84 | with neither a skill nor `verified=true`, the listing keeps every base row |

## Left out

- HTTP, authentication, the JSON envelopes and `saveDatabase`: each handler is a function of the caller's id, the body and the tables.
- Timestamps (`created_at`, `updated_at`): ordering by `created_at DESC` is modelled as descending id. `CURRENT_TIMESTAMP` has one-second resolution, so two requests created in the same second tie and the query leaves their order open. "Newest first" in ListReceived and ListSent, and `Collaboration.CreatedRequestListedFirst` (the new request heads its receiver's inbox), hold in the source only for requests created in different seconds.
- Collaboration.Create: ids are integers. With a string `receiverId`, `isInt` accepts the body and the database lookup succeeds, but the strict `senderId === receiverId` then never holds. A self-request sent as a string is therefore stored, and the model does not show this.
- Collaboration.ListReceived: the sender is taken to be an existing user. GET /received inner-joins `users` on `sender_id` (carte_talents/backend/routes/collaboration.js:68), so it drops a request whose sender has no users row, while GET /count (collaboration.js:115-122) still counts that request. The model lists it. Users are never deleted, and a logged-in sender has a users row, so this needs a token for a user that does not exist.
- Collaboration.ListReceived: the left join with `talents` repeats a request once per talent its sender owns. The model lists each request once. The sender's name, email, bio, location and skills are not attached.
- Collaboration.ListSent: the receiver's name and email are not attached.
- Collaboration.ListReceived, Collaboration.ListSent, Collaboration.CountPending: these require the ids to lie below the counter. Every reachable store satisfies this, as `Collaboration.ReachableValid` shows.
- The users table: it appears only as the set of existing user ids, and users are never deleted.
- Talents.Filter: the `search` and `location` LIKE clauses and the `ORDER BY` are the base sequence, given as a parameter.
- Talents.CreateTalent: `None` stands for a field sent as JSON `null`. A null `linkedin` or `github` is stored as NULL; a null `bio` or `location` passes `optional()` and is turned into the empty string by the `trim()` sanitizer, as `Talents.TrimOpt` states (this rests on the validator library's string conversion, which is not part of this model). A field left out of the body is `undefined`, which the database binding rejects, so the handler answers 500; the model does not cover this. The email validator's verdict is an input. `skills` and `languages` are assumed to be arrays of strings, and `projects` an array of objects. A null skill or language name is inserted into `skills.name` or `languages.name`, which are NOT NULL (carte_talents/backend/database/init.js:129, 148), so the insert at talents.js:142 or 152 fails. A null project element throws at `project.title` (talents.js:160). Both happen after the talent row and the earlier links are written, and the handler answers 500; the model does not cover this. A project whose title is null, or whose title or description is missing, fails after the talent row and its links are written, causing a 500 error; the model does not cover this.
- Talents.UpdateTalent: PUT /:id has no validators, and the model takes `skills` and `languages` to be arrays of strings or absent. The handler relinks for any truthy value. A string such as "Go" is iterated character by character, linking the talent to "G" and "o". A truthy value that cannot be iterated, such as a number or an object, throws after the UPDATE and the DELETE of the talent's links have run, so the handler answers 500 with the row merged and the links gone. The model covers neither case.
- Talents.FavoriteTalents: the handler answers the enriched rows of those talents; the model answers their ids, and `Talents.Enrich` gives each profile.
- Talents.Enrich: tag names are sets and projects a map by id; the order of the rows SQLite returns is not modelled.
- The statistics routes (`/stats/overview`, `/stats/skills`), `seed.js`, the auth routes and the frontend are not part of this model.

=== FILE: collaboration.dfy ===
/**
 The collaboration-request engine: the `collaboration_requests` table as an
 immutable map from request id to record, and the route handlers of
 `routes/collaboration.js` as pure transitions and queries over it.

 Ids come from an AUTOINCREMENT counter, so they are never reused and a
 larger id was created later; the model orders by id where the handlers
 order by `created_at`.
 */
module Collaboration {
  import opened Common

  datatype Status = Pending | Accepted | Rejected

  /** One row of `collaboration_requests` (the timestamps are left out). */
  datatype Request = Request(sender: int, receiver: int, message: string, status: Status)

  /** The table, and the id the next insertion receives. */
  datatype Store = Store(requests: map<int, Request>, next: int)

  /** The table as the schema creates it: no rows, ids start at 1. */
  const Empty: Store := Store(map[], 1)

  /** Every stored id was handed out by the counter. */
  ghost predicate WellNumbered(s: Store)
  {
    && 1 <= s.next
    && forall id :: id in s.requests ==> 1 <= id < s.next
  }

  /** At most one pending request per ordered (sender, receiver) pair. */
  ghost predicate OnePendingPerPair(s: Store)
  {
    forall i, j ::
      && i in s.requests && j in s.requests && i != j
      && s.requests[i].status == Pending && s.requests[j].status == Pending
      ==> s.requests[i].sender != s.requests[j].sender || s.requests[i].receiver != s.requests[j].receiver
  }

  /** The invariant every store reachable through the handlers keeps. */
  ghost predicate Valid(s: Store)
  {
    && WellNumbered(s)
    && OnePendingPerPair(s)
    && (forall id :: id in s.requests ==> s.requests[id].sender != s.requests[id].receiver)
    && (forall id :: id in s.requests ==> IsTrimmed(s.requests[id].message) && |s.requests[id].message| > 0)
  }

  /** Is there a pending request from `sender` to `receiver`? */
  predicate HasPending(s: Store, sender: int, receiver: int)
  {
    exists id :: id in s.requests && s.requests[id].sender == sender
      && s.requests[id].receiver == receiver && s.requests[id].status == Pending
  }

  /* ---------------------------------------------------------------- create */

  /** The body of POST /request. `receiverId` is `None` when the field is not
      an integer; `message` is the text before the validator trims it. */
  datatype RequestBody = RequestBody(receiverId: Option<int>, message: string)

  /** The validators' verdict: an integer receiver and a message that is not
      blank. */
  predicate WellFormed(body: RequestBody)
  {
    body.receiverId.Some? && !AllSpace(body.message)
  }

  /** POST /request by `caller`. `users` is the set of existing user ids.
      On success it answers the new store and the new request's id. */
  function Create(s: Store, users: set<int>, caller: int, body: RequestBody): (r: Result<(Store, int)>)
    ensures r == Err(BadInput) <==> !WellFormed(body)
    ensures r == Err(NotFound) <==> WellFormed(body) && body.receiverId.value !in users
    ensures r == Err(SelfRequest) <==>
      WellFormed(body) && body.receiverId.value in users && body.receiverId.value == caller
    ensures r == Err(AlreadyPending) <==>
      && WellFormed(body) && body.receiverId.value in users && body.receiverId.value != caller
      && HasPending(s, caller, body.receiverId.value)
    ensures r.Ok? <==>
      && WellFormed(body) && body.receiverId.value in users && body.receiverId.value != caller
      && !HasPending(s, caller, body.receiverId.value)
    ensures r.Ok? ==> r.value.1 == s.next
    ensures r.Ok? ==>
      && WellFormed(body)
      && r.value.0.requests ==
         s.requests[r.value.1 := Request(caller, body.receiverId.value, Trim(body.message), Pending)]
      && r.value.0.next == r.value.1 + 1
    ensures r.Ok? && WellNumbered(s) ==> r.value.1 !in s.requests && WellNumbered(r.value.0)
  {
    if !WellFormed(body) then Err(BadInput)
    else
      var receiver := body.receiverId.value;
      if receiver !in users then Err(NotFound)
      else if caller == receiver then Err(SelfRequest)
      else if HasPending(s, caller, receiver) then Err(AlreadyPending)
      else
        var id := s.next;
        Ok((Store(s.requests[id := Request(caller, receiver, Trim(body.message), Pending)], id + 1), id))
  }

  /** A successful request keeps the invariant: the new record is the only
      pending one for its pair, its parties differ and its message is the
      trimmed, non-blank text. */
  lemma CreateKeepsValid(s: Store, users: set<int>, caller: int, body: RequestBody)
    requires Valid(s)
    requires Create(s, users, caller, body).Ok?
    ensures Valid(Create(s, users, caller, body).value.0)
  {
    var (s', id) := Create(s, users, caller, body).value;
    var q := Request(caller, body.receiverId.value, Trim(body.message), Pending);
    assert s'.requests == s.requests[id := q] && id !in s.requests;
    TrimBlank(body.message);
    InsertKeepsValid(s, s', id, q);
  }

  /** Inserting a fresh record whose pair has no pending request, whose
      parties differ and whose message is trimmed and non-empty keeps the
      invariant. */
  lemma InsertKeepsValid(s: Store, s': Store, id: int, q: Request)
    requires Valid(s) && WellNumbered(s')
    requires id !in s.requests && s'.requests == s.requests[id := q]
    requires !HasPending(s, q.sender, q.receiver)
    requires q.sender != q.receiver && IsTrimmed(q.message) && |q.message| > 0
    ensures Valid(s')
  {
    forall i, j |
      && i in s'.requests && j in s'.requests && i != j
      && s'.requests[i].status == Pending && s'.requests[j].status == Pending
      ensures s'.requests[i].sender != s'.requests[j].sender || s'.requests[i].receiver != s'.requests[j].receiver
    {
      if i == id {
        assert j in s.requests;
      } else if j == id {
        assert i in s.requests;
      }
    }
  }

  /* ----------------------------------------------------- accept and reject */

  datatype Decision = Accept | Reject

  /** The status a decision leaves behind. */
  function Outcome(d: Decision): (st: Status)
    ensures st != Pending
  {
    match d
    case Accept => Accepted
    case Reject => Rejected
  }

  /** PUT /:id/accept and PUT /:id/reject by `caller`: the same three guards,
      in the same order, then a status update. */
  function Decide(s: Store, caller: int, id: int, d: Decision): (r: Result<Store>)
    ensures r == Err(NotFound) <==> id !in s.requests
    ensures r == Err(Forbidden) <==> id in s.requests && s.requests[id].receiver != caller
    ensures r == Err(AlreadyHandled) <==>
      id in s.requests && s.requests[id].receiver == caller && s.requests[id].status != Pending
    ensures r.Ok? ==>
      && id in s.requests && s.requests[id].status == Pending
      && r.value.next == s.next
      && r.value.requests.Keys == s.requests.Keys
      && r.value.requests[id] == s.requests[id].(status := Outcome(d))
      && (forall other :: other in s.requests && other != id ==> r.value.requests[other] == s.requests[other])
    ensures r.Ok? && Valid(s) ==> Valid(r.value)
  {
    if id !in s.requests then Err(NotFound)
    else
      var q := s.requests[id];
      if q.receiver != caller then Err(Forbidden)
      else if q.status != Pending then Err(AlreadyHandled)
      else Ok(Store(s.requests[id := q.(status := Outcome(d))], s.next))
  }

  /** PUT /:id/accept. */
  function AcceptRequest(s: Store, caller: int, id: int): (r: Result<Store>)
    ensures r.Ok? <==> id in s.requests && s.requests[id].receiver == caller && s.requests[id].status == Pending
    ensures r.Ok? ==> id in r.value.requests && r.value.requests[id].status == Accepted
  {
    Decide(s, caller, id, Accept)
  }

  /** PUT /:id/reject. */
  function RejectRequest(s: Store, caller: int, id: int): (r: Result<Store>)
    ensures r.Ok? <==> id in s.requests && s.requests[id].receiver == caller && s.requests[id].status == Pending
    ensures r.Ok? ==> id in r.value.requests && r.value.requests[id].status == Rejected
  {
    Decide(s, caller, id, Reject)
  }

  /* ---------------------------------------------------------------- remove */

  /** DELETE /:id by `caller`: only the sender may delete, whatever the status. */
  function Remove(s: Store, caller: int, id: int): (r: Result<Store>)
    ensures r == Err(NotFound) <==> id !in s.requests
    ensures r == Err(Forbidden) <==> id in s.requests && s.requests[id].sender != caller
    ensures r.Ok? <==> id in s.requests && s.requests[id].sender == caller
    ensures r.Ok? ==>
      && id in s.requests && id !in r.value.requests
      && r.value.next == s.next
      && r.value.requests.Keys == s.requests.Keys - {id}
      && (forall other :: other in r.value.requests ==> r.value.requests[other] == s.requests[other])
    ensures r.Ok? && Valid(s) ==> Valid(r.value)
  {
    if id !in s.requests then Err(NotFound)
    else if s.requests[id].sender != caller then Err(Forbidden)
    else Ok(Store(s.requests - {id}, s.next))
  }

  /* --------------------------------------------------------------- queries */

  /** The WHERE clauses of the three read handlers. */
  datatype Selector = ReceivedBy(user: int) | SentBy(user: int) | PendingFor(user: int)

  predicate Shows(sel: Selector, q: Request)
  {
    match sel
    case ReceivedBy(u) => q.receiver == u
    case SentBy(u) => q.sender == u
    case PendingFor(u) => q.receiver == u && q.status == Pending
  }

  /** The ids below `hi` whose request the selector shows, newest first. */
  function Select(requests: map<int, Request>, sel: Selector, hi: int): (ids: seq<int>)
    ensures forall i :: 0 <= i < |ids| ==>
      ids[i] in requests && 1 <= ids[i] < hi && Shows(sel, requests[ids[i]])
    ensures forall id :: id in requests && 1 <= id < hi && Shows(sel, requests[id]) ==> id in ids
    ensures forall i, j :: 0 <= i < j < |ids| ==> ids[i] > ids[j]
    decreases hi
  {
    if hi <= 1 then []
    else
      var rest := Select(requests, sel, hi - 1);
      if hi - 1 in requests && Shows(sel, requests[hi - 1]) then [hi - 1] + rest else rest
  }

  /** A result row: the request's id and its columns. */
  datatype Row = Row(id: int, request: Request)

  function Rows(s: Store, ids: seq<int>): (rows: seq<Row>)
    requires forall i :: 0 <= i < |ids| ==> ids[i] in s.requests
    ensures |rows| == |ids|
    ensures forall i :: 0 <= i < |rows| ==> rows[i] == Row(ids[i], s.requests[ids[i]])
  {
    seq(|ids|, i requires 0 <= i < |ids| => Row(ids[i], s.requests[ids[i]]))
  }

  /** The rows a selector picks out of a well-numbered store, newest first. */
  function Listing(s: Store, sel: Selector): (rows: seq<Row>)
    requires WellNumbered(s)
    ensures forall i :: 0 <= i < |rows| ==>
      rows[i].id in s.requests && rows[i].request == s.requests[rows[i].id] && Shows(sel, rows[i].request)
    ensures forall id :: id in s.requests && Shows(sel, s.requests[id]) ==>
      exists i :: 0 <= i < |rows| && rows[i].id == id
    ensures forall i, j :: 0 <= i < j < |rows| ==> rows[i].id > rows[j].id
  {
    var ids := Select(s.requests, sel, s.next);
    var rows := Rows(s, ids);
    ListingComplete(s, sel, ids, rows);
    rows
  }

  lemma ListingComplete(s: Store, sel: Selector, ids: seq<int>, rows: seq<Row>)
    requires |rows| == |ids| && forall i :: 0 <= i < |rows| ==> rows[i].id == ids[i]
    requires forall id :: id in s.requests && Shows(sel, s.requests[id]) ==> id in ids
    ensures forall id :: id in s.requests && Shows(sel, s.requests[id]) ==>
      exists i :: 0 <= i < |rows| && rows[i].id == id
  {
    forall id | id in s.requests && Shows(sel, s.requests[id])
      ensures exists i :: 0 <= i < |rows| && rows[i].id == id
    {
      var k := IndexOf(ids, id);
      assert rows[k].id == id;
    }
  }

  function IndexOf(ids: seq<int>, id: int): (i: nat)
    requires id in ids
    ensures i < |ids| && ids[i] == id
  {
    if ids[0] == id then 0 else 1 + IndexOf(ids[1..], id)
  }

  /** GET /received for user `u`: exactly the requests `u` received, newest first. */
  function ListReceived(s: Store, u: int): (rows: seq<Row>)
    requires WellNumbered(s)
    ensures forall i :: 0 <= i < |rows| ==>
      rows[i].id in s.requests && rows[i].request == s.requests[rows[i].id] && rows[i].request.receiver == u
    ensures forall id :: id in s.requests && s.requests[id].receiver == u ==>
      exists i :: 0 <= i < |rows| && rows[i].id == id
    ensures forall i, j :: 0 <= i < j < |rows| ==> rows[i].id > rows[j].id
  {
    Listing(s, ReceivedBy(u))
  }

  /** GET /sent for user `u`: exactly the requests `u` sent, newest first. */
  function ListSent(s: Store, u: int): (rows: seq<Row>)
    requires WellNumbered(s)
    ensures forall i :: 0 <= i < |rows| ==>
      rows[i].id in s.requests && rows[i].request == s.requests[rows[i].id] && rows[i].request.sender == u
    ensures forall id :: id in s.requests && s.requests[id].sender == u ==>
      exists i :: 0 <= i < |rows| && rows[i].id == id
    ensures forall i, j :: 0 <= i < j < |rows| ==> rows[i].id > rows[j].id
  {
    Listing(s, SentBy(u))
  }

  /** The ids of the requests pending for `u`. */
  ghost function PendingIds(s: Store, u: int): set<int>
  {
    set id | id in s.requests && s.requests[id].receiver == u && s.requests[id].status == Pending
  }

  /** GET /count for user `u`: the number of pending requests `u` received. */
  function CountPending(s: Store, u: int): (n: nat)
    requires WellNumbered(s)
    ensures n == |PendingIds(s, u)|
  {
    var ids := Select(s.requests, PendingFor(u), s.next);
    DescendingCard(ids);
    assert (set x | x in ids) == PendingIds(s, u);
    |ids|
  }

  /** A strictly descending sequence lists each of its elements once. */
  lemma {:induction false} DescendingCard(ids: seq<int>)
    requires forall i, j :: 0 <= i < j < |ids| ==> ids[i] > ids[j]
    ensures |set x | x in ids| == |ids|
  {
    if |ids| > 0 {
      DescendingCard(ids[1..]);
      assert (set x | x in ids) == {ids[0]} + (set x | x in ids[1..]);
      assert ids[0] !in (set x | x in ids[1..]);
    }
  }

  /* ------------------------------------------------------------ properties */

  /** Accepting or rejecting lowers the receiver's pending count by exactly
      one and leaves every other user's count alone. */
  lemma DecideLowersCount(s: Store, caller: int, id: int, d: Decision, u: int)
    requires WellNumbered(s)
    requires Decide(s, caller, id, d).Ok?
    ensures WellNumbered(Decide(s, caller, id, d).value)
    ensures u == caller ==> CountPending(Decide(s, caller, id, d).value, u) == CountPending(s, u) - 1
    ensures u != caller ==> CountPending(Decide(s, caller, id, d).value, u) == CountPending(s, u)
  {
    var s' := Decide(s, caller, id, d).value;
    if u == caller {
      assert PendingIds(s', u) == PendingIds(s, u) - {id};
      assert id in PendingIds(s, u);
    } else {
      assert PendingIds(s', u) == PendingIds(s, u);
    }
  }

  /** A successful request raises the receiver's pending count by one. */
  lemma CreateRaisesCount(s: Store, users: set<int>, caller: int, body: RequestBody, s': Store, id: int)
    requires WellNumbered(s)
    requires Create(s, users, caller, body) == Ok((s', id))
    ensures WellNumbered(s')
    ensures CountPending(s', body.receiverId.value) == CountPending(s, body.receiverId.value) + 1
  {
    var u := body.receiverId.value;
    InsertPendingIds(s, s', id, Request(caller, u, Trim(body.message), Pending));
  }

  lemma InsertPendingIds(s: Store, s': Store, id: int, q: Request)
    requires id !in s.requests && s'.requests == s.requests[id := q] && q.status == Pending
    ensures PendingIds(s', q.receiver) == PendingIds(s, q.receiver) + {id}
    ensures |PendingIds(s', q.receiver)| == |PendingIds(s, q.receiver)| + 1
  {
    assert PendingIds(s', q.receiver) == PendingIds(s, q.receiver) + {id};
  }

  /** The new request heads its receiver's inbox and its sender's outbox. */
  lemma CreatedRequestListedFirst(s: Store, users: set<int>, caller: int, body: RequestBody, s': Store, id: int)
    requires WellNumbered(s)
    requires Create(s, users, caller, body) == Ok((s', id))
    ensures WellNumbered(s')
    ensures |ListReceived(s', body.receiverId.value)| > 0
    ensures ListReceived(s', body.receiverId.value)[0]
         == Row(id, Request(caller, body.receiverId.value, Trim(body.message), Pending))
    ensures |ListSent(s', caller)| > 0 && ListSent(s', caller)[0].id == id
  {
    var u := body.receiverId.value;
    assert s'.next == id + 1 && s'.requests[id] == Request(caller, u, Trim(body.message), Pending);
    SelectNewest(s'.requests, ReceivedBy(u), s'.next);
    SelectNewest(s'.requests, SentBy(caller), s'.next);
  }

  /** The record just below the bound, when shown, comes first. */
  lemma SelectNewest(requests: map<int, Request>, sel: Selector, hi: int)
    requires hi > 1 && hi - 1 in requests && Shows(sel, requests[hi - 1])
    ensures |Select(requests, sel, hi)| > 0 && Select(requests, sel, hi)[0] == hi - 1
  {
  }

  /** A second decision on the same request is refused as already handled. */
  lemma SecondDecisionRefused(s: Store, caller: int, id: int, d1: Decision, d2: Decision)
    requires Decide(s, caller, id, d1).Ok?
    ensures Decide(Decide(s, caller, id, d1).value, caller, id, d2) == Err(AlreadyHandled)
  {
  }

  /** Once a request is decided, its pair has no pending request left: the
      invariant allowed only that one. */
  lemma DecidedPairNotPending(s: Store, caller: int, id: int, d: Decision)
    requires Valid(s)
    requires Decide(s, caller, id, d).Ok?
    ensures !HasPending(Decide(s, caller, id, d).value, s.requests[id].sender, s.requests[id].receiver)
  {
    var s' := Decide(s, caller, id, d).value;
    var q := s.requests[id];
    forall other | other in s'.requests && s'.requests[other].status == Pending
      ensures s'.requests[other].sender != q.sender || s'.requests[other].receiver != q.receiver
    {
      assert other != id && s'.requests[other] == s.requests[other];
    }
  }

  /** A pending request blocks a duplicate; once the receiver rejects it, the
      sender may ask again. */
  lemma RejectUnblocksResend(s: Store, users: set<int>, a: int, b: int, m: string)
    requires Valid(s)
    requires a in users && b in users && a != b && !AllSpace(m)
    requires !HasPending(s, a, b)
    ensures var body := RequestBody(Some(b), m);
      var first := Create(s, users, a, body);
      && first.Ok?
      && Create(first.value.0, users, a, body) == Err(AlreadyPending)
      && RejectRequest(first.value.0, b, first.value.1).Ok?
      && Create(RejectRequest(first.value.0, b, first.value.1).value, users, a, body).Ok?
  {
    var body := RequestBody(Some(b), m);
    var (s1, id) := Create(s, users, a, body).value;
    assert s1.requests[id].sender == a && s1.requests[id].receiver == b;
    assert HasPending(s1, a, b);
    CreateKeepsValid(s, users, a, body);
    DecidedPairNotPending(s1, b, id, Reject);
  }

  /* ----------------------------------------------- the handlers as a system */

  /** A call to one of the mutating handlers. */
  datatype Op =
    | Send(caller: int, body: RequestBody)
    | Respond(caller: int, id: int, decision: Decision)
    | Delete(caller: int, id: int)

  function Apply(s: Store, users: set<int>, op: Op): Result<Store>
  {
    match op
    case Send(caller, body) =>
      (match Create(s, users, caller, body)
       case Ok(v) => Ok(v.0)
       case Err(e) => Err(e))
    case Respond(caller, id, d) => Decide(s, caller, id, d)
    case Delete(caller, id) => Remove(s, caller, id)
  }

  /** Every successful handler call keeps the invariant. */
  lemma ApplyKeepsValid(s: Store, users: set<int>, op: Op)
    requires Valid(s)
    requires Apply(s, users, op).Ok?
    ensures Valid(Apply(s, users, op).value)
  {
    if op.Send? {
      CreateKeepsValid(s, users, op.caller, op.body);
    }
  }

  /** No handler moves a request back to pending, and no handler touches a
      request that has been accepted or rejected except to delete it. */
  lemma ResolvedRequestsAreFinal(s: Store, users: set<int>, op: Op)
    requires Valid(s)
    requires Apply(s, users, op).Ok?
    ensures var s' := Apply(s, users, op).value;
      forall id :: id in s.requests && id in s'.requests && s.requests[id].status != Pending ==>
        s'.requests[id] == s.requests[id]
    ensures var s' := Apply(s, users, op).value;
      forall id :: id in s.requests && id in s'.requests && s'.requests[id].status == Pending ==>
        s.requests[id].status == Pending
  {
  }

  /** The store after a sequence of calls; a refused call changes nothing. */
  function Run(s: Store, users: set<int>, ops: seq<Op>): Store
    decreases |ops|
  {
    if |ops| == 0 then s
    else
      var r := Apply(s, users, ops[0]);
      Run(if r.Ok? then r.value else s, users, ops[1..])
  }

  /** Every store reachable from the empty table keeps the invariant, in
      particular at most one pending request per ordered pair. */
  lemma {:induction false} RunKeepsValid(s: Store, users: set<int>, ops: seq<Op>)
    requires Valid(s)
    ensures Valid(Run(s, users, ops))
    decreases |ops|
  {
    if |ops| > 0 {
      var r := Apply(s, users, ops[0]);
      if r.Ok? {
        ApplyKeepsValid(s, users, ops[0]);
      }
      RunKeepsValid(if r.Ok? then r.value else s, users, ops[1..]);
    }
  }

  lemma ReachableValid(users: set<int>, ops: seq<Op>)
    ensures Valid(Run(Empty, users, ops))
  {
    RunKeepsValid(Empty, users, ops);
  }
}

=== FILE: common.dfy ===
/**
 Shared vocabulary of the talent-directory backend model: the error outcomes
 the route handlers answer with, a result type carrying either a new state or
 one of those errors, and the whitespace trimming that the request validators
 apply to text fields before they are checked and stored.
 */
module Common {

  /** Optional value. `None` stands for SQL NULL, for a JSON `null` in the body
      of a create, and for a field that is absent or null in the body of an
      update. */
  datatype Option<+T> = None | Some(value: T)

  /** The handlers' failure answers. The HTTP status code is only a label:
      BadInput is 400 from the validators, NotFound 404, SelfRequest,
      AlreadyPending and AlreadyHandled are the 400 answers of the
      collaboration handlers, Forbidden is 403. */
  datatype Error =
    | BadInput
    | NotFound
    | SelfRequest
    | AlreadyPending
    | Forbidden
    | AlreadyHandled

  /** Either the new state (or query answer) or the error the handler returns. */
  datatype Result<+T> = Ok(value: T) | Err(error: Error)

  /** The characters matched by the JavaScript regular-expression class `\s`,
      which the validators' `trim()` strips from both ends of a string. */
  predicate IsSpace(c: char)
  {
    || c == ' ' || c == '\t' || c == '\n' || c == '\U{B}' || c == '\U{C}' || c == '\r'
    || c == '\U{A0}' || c == '\U{1680}' || ('\U{2000}' <= c <= '\U{200A}')
    || c == '\U{2028}' || c == '\U{2029}' || c == '\U{202F}' || c == '\U{205F}'
    || c == '\U{3000}' || c == '\U{FEFF}'
  }

  predicate AllSpace(s: string)
  {
    forall k :: 0 <= k < |s| ==> IsSpace(s[k])
  }

  /** A string with no whitespace at either end. */
  predicate IsTrimmed(s: string)
  {
    |s| == 0 || (!IsSpace(s[0]) && !IsSpace(s[|s| - 1]))
  }

  /** Drops the leading whitespace: the result is the suffix of `s` that starts
      at its first non-space character. */
  function TrimStart(s: string): (r: string)
    ensures |r| <= |s| && r == s[|s| - |r|..]
    ensures |r| > 0 ==> !IsSpace(r[0])
  {
    if |s| > 0 && IsSpace(s[0]) then TrimStart(s[1..]) else s
  }

  /** Drops the trailing whitespace: the result is the prefix of `s` that ends
      at its last non-space character. */
  function TrimEnd(s: string): (r: string)
    ensures |r| <= |s| && r == s[..|r|]
    ensures |r| > 0 ==> !IsSpace(r[|r| - 1])
  {
    if |s| > 0 && IsSpace(s[|s| - 1]) then TrimEnd(s[..|s| - 1]) else s
  }

  /** What the validators' `trim()` leaves of a field: `s` without the
      whitespace at either end. */
  function Trim(s: string): (r: string)
    ensures IsTrimmed(r)
    ensures |r| <= |s|
    ensures exists i, j :: 0 <= i <= j <= |s| && r == s[i..j] && AllSpace(s[..i]) && AllSpace(s[j..])
  {
    var t := TrimStart(s);
    var r := TrimEnd(t);
    var i := |s| - |t|;
    TrimStartDropsSpace(s);
    TrimEndDropsSpace(t);
    assert r == s[i..i + |r|] && s[i + |r|..] == t[|r|..];
    if |r| == 0 then r
    else
      assert r[0] == t[0];
      r
  }

  /** Only whitespace is dropped in front. */
  lemma {:induction false} TrimStartDropsSpace(s: string)
    ensures AllSpace(s[..|s| - |TrimStart(s)|])
  {
    if |s| > 0 && IsSpace(s[0]) {
      TrimStartDropsSpace(s[1..]);
      var n := |s| - |TrimStart(s)|;
      forall k | 0 <= k < n ensures IsSpace(s[k]) {
        if k > 0 {
          assert s[k] == s[1..][..n - 1][k - 1];
        }
      }
    }
  }

  /** Only whitespace is dropped at the end. */
  lemma {:induction false} TrimEndDropsSpace(s: string)
    ensures AllSpace(s[|TrimEnd(s)|..])
  {
    if |s| > 0 && IsSpace(s[|s| - 1]) {
      var p := s[..|s| - 1];
      TrimEndDropsSpace(p);
      var m := |TrimEnd(s)|;
      forall k | m <= k < |s| ensures IsSpace(s[k]) {
        if k < |s| - 1 {
          assert s[k] == p[m..][k - m];
        }
      }
    }
  }

  /** A field trims to nothing exactly when it is all whitespace, which is
      what the `notEmpty()` validator after `trim()` rejects. */
  lemma TrimBlank(s: string)
    ensures |Trim(s)| == 0 <==> AllSpace(s)
  {
    var t := TrimStart(s);
    TrimStartDropsSpace(s);
    if |Trim(s)| == 0 {
      TrimEndDropsSpace(t);
      assert |t| == 0;
      assert s[..|s| - |t|] == s;
    } else {
      var r := Trim(s);
      assert r[0] == s[|s| - |t|];
    }
  }

  /** Trimming is idempotent: a trimmed field is stored as is. */
  lemma TrimTrimmed(s: string)
    requires IsTrimmed(s)
    ensures Trim(s) == s
  {
    if |s| > 0 {
      assert TrimStart(s) == s;
      assert TrimEnd(s) == s;
    }
  }

  lemma TrimIdempotent(s: string)
    ensures Trim(Trim(s)) == Trim(s)
  {
    TrimTrimmed(Trim(s));
  }
}

=== FILE: tags.dfy ===
/**
 The tag tables of the directory (`skills` and `languages`: an id per unique
 name) and their link tables (`talent_skills`, `talent_languages`: pairs of
 talent id and tag id under a composite primary key).

 Both handlers that write tags do it the same way, one name at a time:
 look the name up, insert it under a fresh id if it is unknown, then
 `INSERT OR IGNORE` the link. Since the link table's key is the whole pair,
 the links of the model are a set.
 */
module Tags {

  /** A tag table: name to id; the name column is UNIQUE, so a map.
      `next` is the id AUTOINCREMENT hands out next. */
  datatype Table = Table(ids: map<string, int>, next: int)

  /** The table as the schema creates it. */
  const EmptyTable: Table := Table(map[], 1)

  /** A row of a link table: (talent id, tag id). */
  datatype Link = Link(owner: int, tag: int)

  /** Ids come from the counter and no two names share an id. */
  ghost predicate Valid(t: Table)
  {
    && 1 <= t.next
    && (forall n :: n in t.ids ==> 1 <= t.ids[n] < t.next)
    && (forall n, m :: n in t.ids && m in t.ids && n != m ==> t.ids[n] != t.ids[m])
  }

  /** Every entry of `t` is still in `t'` with the same id. */
  ghost predicate Extends(t: Table, t': Table)
  {
    && t.next <= t'.next
    && (forall n :: n in t.ids ==> n in t'.ids && t'.ids[n] == t.ids[n])
    && (forall n :: n in t'.ids && n !in t.ids ==> t.next <= t'.ids[n])
  }

  /** The names `owner` is linked to. */
  ghost function Names(t: Table, links: set<Link>, owner: int): set<string>
  {
    set n | n in t.ids && Link(owner, t.ids[n]) in links
  }

  /** The links of everyone but `owner` (`DELETE ... WHERE talent_id = owner`). */
  function Unlink(links: set<Link>, owner: int): (r: set<Link>)
    ensures forall l :: l in r <==> l in links && l.owner != owner
  {
    set l | l in links && l.owner != owner
  }

  /** After unlinking, `owner` has no names and everyone else keeps theirs. */
  lemma UnlinkNames(t: Table, links: set<Link>, owner: int, other: int)
    ensures Names(t, Unlink(links, owner), owner) == {}
    ensures other != owner ==> Names(t, Unlink(links, owner), other) == Names(t, links, other)
  {
  }

  /** Looks `name` up and inserts it under a fresh id when it is unknown;
      answers the table and the id of `name`. */
  function FindOrCreate(t: Table, name: string): (r: (Table, int))
    ensures name in r.0.ids && r.0.ids[name] == r.1
    ensures r.0.ids.Keys == t.ids.Keys + {name}
    ensures Extends(t, r.0)
    ensures name in t.ids ==> r.0 == t
    ensures name !in t.ids ==> r.1 == t.next && r.0.next == t.next + 1
    ensures Valid(t) ==> Valid(r.0)
  {
    if name in t.ids then (t, t.ids[name])
    else (Table(t.ids[name := t.next], t.next + 1), t.next)
  }

  /** The links from `owner` to the tags named in `names`. */
  ghost function LinksTo(t: Table, owner: int, names: seq<string>): set<Link>
  {
    set n | n in names && n in t.ids :: Link(owner, t.ids[n])
  }

  /** The loop of the create and update handlers: find or create each name
      in order, then link `owner` to it, ignoring a link that exists. */
  function LinkAll(t: Table, links: set<Link>, owner: int, names: seq<string>): (r: (Table, set<Link>))
    ensures Extends(t, r.0)
    ensures forall n :: n in r.0.ids <==> n in t.ids || n in names
    ensures links <= r.1
    decreases |names|
  {
    if |names| == 0 then (t, links)
    else
      var (t1, l1) := LinkAll(t, links, owner, names[..|names| - 1]);
      var (t2, id) := FindOrCreate(t1, names[|names| - 1]);
      (t2, l1 + {Link(owner, id)})
  }

  /** Linking keeps the table's ids distinct and below its counter. */
  lemma {:induction false} LinkAllValid(t: Table, links: set<Link>, owner: int, names: seq<string>)
    requires Valid(t)
    ensures Valid(LinkAll(t, links, owner, names).0)
    decreases |names|
  {
    if |names| > 0 {
      LinkAllValid(t, links, owner, names[..|names| - 1]);
    }
  }

  /** The links `LinkAll` adds are exactly those from `owner` to the listed
      names, under the ids of the resulting table. */
  lemma {:induction false} LinkAllLinks(t: Table, links: set<Link>, owner: int, names: seq<string>)
    ensures var r := LinkAll(t, links, owner, names);
      r.1 == links + LinksTo(r.0, owner, names)
    decreases |names|
  {
    if |names| > 0 {
      var front := names[..|names| - 1];
      var last := names[|names| - 1];
      LinkAllLinks(t, links, owner, front);
      var (t1, l1) := LinkAll(t, links, owner, front);
      var (t2, id) := FindOrCreate(t1, last);
      assert LinkAll(t, links, owner, names) == (t2, l1 + {Link(owner, id)});
      assert names == front + [last];
      assert LinksTo(t2, owner, names) == LinksTo(t1, owner, front) + {Link(owner, id)} by {
        forall l | l in LinksTo(t2, owner, names)
          ensures l in LinksTo(t1, owner, front) + {Link(owner, id)}
        {
          var n :| n in names && n in t2.ids && l == Link(owner, t2.ids[n]);
          if n != last {
            assert n in front;
          }
        }
      }
    }
  }

  /** After linking, `owner` carries exactly the given names, provided it
      carried none before (a fresh talent, or one whose links were deleted). */
  lemma LinkAllNames(t: Table, links: set<Link>, owner: int, names: seq<string>)
    requires Valid(t)
    requires forall l :: l in links ==> l.owner != owner
    ensures var r := LinkAll(t, links, owner, names);
      Names(r.0, r.1, owner) == set n | n in names
  {
    var r := LinkAll(t, links, owner, names);
    LinkAllLinks(t, links, owner, names);
    LinkAllValid(t, links, owner, names);
    forall n | n in Names(r.0, r.1, owner) ensures n in names {
      assert Link(owner, r.0.ids[n]) in LinksTo(r.0, owner, names);
      var m :| m in names && m in r.0.ids && Link(owner, r.0.ids[n]) == Link(owner, r.0.ids[m]);
      assert m == n;
    }
    forall n | n in names ensures n in Names(r.0, r.1, owner) {
      assert Link(owner, r.0.ids[n]) in LinksTo(r.0, owner, names);
    }
  }

  /** Linking `owner` leaves every other owner's names as they were, provided
      the existing links only use ids the table had handed out. */
  lemma LinkAllKeepsOthers(t: Table, links: set<Link>, owner: int, names: seq<string>, other: int)
    requires Valid(t)
    requires forall l :: l in links ==> l.tag < t.next
    requires other != owner
    ensures var r := LinkAll(t, links, owner, names);
      Names(r.0, r.1, other) == Names(t, links, other)
  {
    var r := LinkAll(t, links, owner, names);
    LinkAllLinks(t, links, owner, names);
    LinkAllValid(t, links, owner, names);
    forall n | n in Names(r.0, r.1, other) ensures n in Names(t, links, other) {
      var l := Link(other, r.0.ids[n]);
      assert l in links;
      assert n in t.ids;
    }
  }

  /** Links created by `LinkAll` point to ids of the resulting table. */
  lemma LinkAllBounds(t: Table, links: set<Link>, owner: int, names: seq<string>, bound: int)
    requires Valid(t)
    requires forall l :: l in links ==> l.tag < t.next && l.owner < bound
    requires owner < bound
    ensures var r := LinkAll(t, links, owner, names);
      forall l :: l in r.1 ==> l.tag < r.0.next && l.owner < bound
  {
    var r := LinkAll(t, links, owner, names);
    LinkAllLinks(t, links, owner, names);
    LinkAllValid(t, links, owner, names);
    forall l | l in r.1 ensures l.tag < r.0.next && l.owner < bound {
      if l !in links {
        var n :| n in names && n in r.0.ids && l == Link(owner, r.0.ids[n]);
      }
    }
  }
}

=== FILE: talents.dfy ===
/**
 The talent directory of `routes/talents.js`: talent profiles with their
 skill and language links, projects and favorites, and the handlers that
 change them, as pure transitions over an immutable directory value.

 The database never enables foreign-key enforcement, so the schema's
 ON DELETE CASCADE clauses do not fire: deleting a talent removes only its
 row. AUTOINCREMENT never reuses an id, so the rows left behind never attach
 to a talent created later.
 */
module Talents {
  import opened Common
  import Tags

  /** A row of `talents` (timestamps left out). `owner` is `user_id`, which
      may be NULL. */
  datatype Talent = Talent(
    owner: Option<int>,
    name: string,
    email: string,
    bio: Option<string>,
    location: Option<string>,
    linkedin: Option<string>,
    github: Option<string>,
    verified: int)

  /** A row of `projects`. */
  datatype Project = Project(talent: int, title: string, description: Option<string>)

  /** A row of `favorites`; the pair is the table's primary key. */
  datatype Favorite = Favorite(user: int, talent: int)

  /** The tables the talent handlers read and write. */
  datatype Directory = Directory(
    talents: map<int, Talent>,
    nextTalent: int,
    skills: Tags.Table,
    languages: Tags.Table,
    skillLinks: set<Tags.Link>,
    languageLinks: set<Tags.Link>,
    projects: map<int, Project>,
    nextProject: int,
    favorites: set<Favorite>)

  /** The tables as the schema creates them. */
  const Empty: Directory :=
    Directory(map[], 1, Tags.EmptyTable, Tags.EmptyTable, {}, {}, map[], 1, {})

  /** The invariant every reachable directory keeps: ids come from their
      counters, tag names have distinct ids, and every link names a talent id
      and a tag id that were handed out. */
  ghost predicate Valid(d: Directory)
  {
    && 1 <= d.nextTalent
    && (forall t :: t in d.talents ==> 1 <= t < d.nextTalent)
    && Tags.Valid(d.skills)
    && Tags.Valid(d.languages)
    && (forall l :: l in d.skillLinks ==> l.tag < d.skills.next && l.owner < d.nextTalent)
    && (forall l :: l in d.languageLinks ==> l.tag < d.languages.next && l.owner < d.nextTalent)
    && 1 <= d.nextProject
    && (forall p :: p in d.projects ==> 1 <= p < d.nextProject && d.projects[p].talent < d.nextTalent)
  }

  /** The skill names of talent `t` (`getTalentSkills`). */
  ghost function SkillNames(d: Directory, t: int): set<string>
  {
    Tags.Names(d.skills, d.skillLinks, t)
  }

  /** The language names of talent `t` (`getTalentLanguages`). */
  ghost function LanguageNames(d: Directory, t: int): set<string>
  {
    Tags.Names(d.languages, d.languageLinks, t)
  }

  /** JavaScript truthiness of a body field: present and not the empty string. */
  predicate Truthy(v: Option<string>)
  {
    v.Some? && v.value != ""
  }

  /* ---------------------------------------------------------------- create */

  /** A project as the request body gives it. */
  datatype ProjectInput = ProjectInput(title: string, description: Option<string>)

  /** The body of POST /. `emailValid` is the email validator's verdict. */
  datatype NewTalent = NewTalent(
    name: string,
    email: string,
    emailValid: bool,
    bio: Option<string>,
    location: Option<string>,
    linkedin: Option<string>,
    github: Option<string>,
    skills: seq<string>,
    languages: seq<string>,
    projects: seq<ProjectInput>)

  /** The validators' verdict: a name that is not blank and a valid email. */
  predicate Acceptable(b: NewTalent)
  {
    !AllSpace(b.name) && b.emailValid
  }

  /** What `.optional().trim()` leaves of `bio` or `location`. `optional()`
      lets a JSON null through to the `trim()` sanitizer, which turns it into
      the empty string, so the stored column is never NULL. */
  function TrimOpt(v: Option<string>): (r: Option<string>)
    ensures r.Some? && IsTrimmed(r.value)
    ensures v.None? ==> r == Some("")
    ensures v.Some? ==> (|r.value| == 0 <==> AllSpace(v.value))
    ensures v.Some? ==> r.value == Trim(v.value)
  {
    match v
    case None => Some("")
    case Some(s) => TrimBlank(s); Some(Trim(s))
  }

  /** The inserted row: owned by the caller, text fields trimmed as the
      validators leave them, `linkedin` and `github` as given (NULL when
      null), `verified` at its default 0. */
  function NewRecord(caller: int, b: NewTalent): Talent
  {
    Talent(Some(caller), Trim(b.name), b.email, TrimOpt(b.bio), TrimOpt(b.location), b.linkedin, b.github, 0)
  }

  /** The project loop of POST /: one row per project, in order, under fresh ids. */
  function AddProjects(projects: map<int, Project>, next: int, owner: int, ps: seq<ProjectInput>): (r: (map<int, Project>, int))
    ensures r.1 == next + |ps|
    decreases |ps|
  {
    if |ps| == 0 then (projects, next)
    else
      var (m, n) := AddProjects(projects, next, owner, ps[..|ps| - 1]);
      var p := ps[|ps| - 1];
      (m[n := Project(owner, p.title, p.description)], n + 1)
  }

  /** Row `k` after the loop: one of the fresh ids holds the matching body
      project, any other id keeps the row it had, and no other id appears. */
  lemma {:induction false} AddProjectsAt(projects: map<int, Project>, next: int, owner: int, ps: seq<ProjectInput>, k: int)
    ensures var r := AddProjects(projects, next, owner, ps);
      k in r.0 <==> k in projects || next <= k < next + |ps|
    ensures var r := AddProjects(projects, next, owner, ps);
      next <= k < next + |ps| ==> k in r.0 && r.0[k] == Project(owner, ps[k - next].title, ps[k - next].description)
    ensures var r := AddProjects(projects, next, owner, ps);
      k in projects && !(next <= k < next + |ps|) ==> k in r.0 && r.0[k] == projects[k]
    decreases |ps|
  {
    if |ps| > 0 {
      var front := ps[..|ps| - 1];
      AddProjectsAt(projects, next, owner, front, k);
      if k == next + |ps| - 1 {
        assert ps[k - next] == ps[|ps| - 1];
      } else if next <= k < next + |ps| - 1 {
        assert ps[k - next] == front[k - next];
      }
    }
  }

  /** POST / by `caller`: answers the new directory and the new talent's id. */
  function CreateTalent(d: Directory, caller: int, b: NewTalent): (r: Result<(Directory, int)>)
    ensures r == Err(BadInput) <==> !Acceptable(b)
    ensures r.Ok? <==> Acceptable(b)
    ensures r.Ok? ==> r.value.1 == d.nextTalent
    ensures r.Ok? ==>
      && r.value.0.talents == d.talents[r.value.1 := NewRecord(caller, b)]
      && r.value.0.favorites == d.favorites
    ensures r.Ok? && Valid(d) ==> r.value.1 !in d.talents
    ensures r.Ok? ==> r.value.0.nextProject == d.nextProject + |b.projects|
  {
    if !Acceptable(b) then Err(BadInput)
    else
      var id := d.nextTalent;
      var (sk, sl) := Tags.LinkAll(d.skills, d.skillLinks, id, b.skills);
      var (lg, ll) := Tags.LinkAll(d.languages, d.languageLinks, id, b.languages);
      var (pm, pn) := AddProjects(d.projects, d.nextProject, id, b.projects);
      Ok((Directory(d.talents[id := NewRecord(caller, b)], id + 1, sk, lg, sl, ll, pm, pn, d.favorites), id))
  }

  /** Linking a talent that has no links yet (its id is above every linked
      one): it ends with exactly the given names, every other talent keeps its
      names, and the links stay within the handed-out ids. */
  lemma LinkFresh(t: Tags.Table, links: set<Tags.Link>, owner: int, names: seq<string>)
    requires Tags.Valid(t)
    requires forall l :: l in links ==> l.tag < t.next && l.owner < owner
    ensures var r := Tags.LinkAll(t, links, owner, names);
      && Tags.Valid(r.0)
      && Tags.Names(r.0, r.1, owner) == (set n | n in names)
      && (forall o :: o != owner ==> Tags.Names(r.0, r.1, o) == Tags.Names(t, links, o))
      && (forall l :: l in r.1 ==> l.tag < r.0.next && l.owner < owner + 1)
  {
    var r := Tags.LinkAll(t, links, owner, names);
    Tags.LinkAllNames(t, links, owner, names);
    Tags.LinkAllValid(t, links, owner, names);
    Tags.LinkAllBounds(t, links, owner, names, owner + 1);
    forall o | o != owner ensures Tags.Names(r.0, r.1, o) == Tags.Names(t, links, o) {
      Tags.LinkAllKeepsOthers(t, links, owner, names, o);
    }
  }

  /** A created talent carries exactly the skills and languages of the body,
      each name once however often it is repeated; no other talent's tags
      change. */
  lemma CreateTalentTags(d: Directory, caller: int, b: NewTalent)
    requires Valid(d) && Acceptable(b)
    ensures var (d', id) := CreateTalent(d, caller, b).value;
      && SkillNames(d', id) == (set n | n in b.skills)
      && LanguageNames(d', id) == (set n | n in b.languages)
      && (forall t :: t != id ==> SkillNames(d', t) == SkillNames(d, t))
      && (forall t :: t != id ==> LanguageNames(d', t) == LanguageNames(d, t))
  {
    var (d', id) := CreateTalent(d, caller, b).value;
    var sk := Tags.LinkAll(d.skills, d.skillLinks, id, b.skills);
    var lg := Tags.LinkAll(d.languages, d.languageLinks, id, b.languages);
    assert d'.skills == sk.0 && d'.skillLinks == sk.1;
    assert d'.languages == lg.0 && d'.languageLinks == lg.1;
    LinkFresh(d.skills, d.skillLinks, id, b.skills);
    LinkFresh(d.languages, d.languageLinks, id, b.languages);
  }

  /** POST / keeps the directory invariant. */
  lemma CreateTalentKeepsValid(d: Directory, caller: int, b: NewTalent)
    requires Valid(d) && Acceptable(b)
    ensures Valid(CreateTalent(d, caller, b).value.0)
  {
    CreateKeepsSkills(d, caller, b);
    CreateKeepsLanguages(d, caller, b);
    CreateKeepsRows(d, caller, b);
  }

  lemma CreateKeepsSkills(d: Directory, caller: int, b: NewTalent)
    requires Valid(d) && Acceptable(b)
    ensures var (d', id) := CreateTalent(d, caller, b).value;
      && d'.nextTalent == id + 1
      && Tags.Valid(d'.skills)
      && (forall l :: l in d'.skillLinks ==> l.tag < d'.skills.next && l.owner < d'.nextTalent)
  {
    var (d', id) := CreateTalent(d, caller, b).value;
    var sk := Tags.LinkAll(d.skills, d.skillLinks, id, b.skills);
    assert d'.skills == sk.0 && d'.skillLinks == sk.1;
    LinkFresh(d.skills, d.skillLinks, id, b.skills);
  }

  lemma CreateKeepsLanguages(d: Directory, caller: int, b: NewTalent)
    requires Valid(d) && Acceptable(b)
    ensures var (d', id) := CreateTalent(d, caller, b).value;
      && Tags.Valid(d'.languages)
      && (forall l :: l in d'.languageLinks ==> l.tag < d'.languages.next && l.owner < d'.nextTalent)
  {
    var (d', id) := CreateTalent(d, caller, b).value;
    var lg := Tags.LinkAll(d.languages, d.languageLinks, id, b.languages);
    assert d'.languages == lg.0 && d'.languageLinks == lg.1;
    LinkFresh(d.languages, d.languageLinks, id, b.languages);
  }

  lemma CreateKeepsRows(d: Directory, caller: int, b: NewTalent)
    requires Valid(d) && Acceptable(b)
    ensures var (d', id) := CreateTalent(d, caller, b).value;
      && 1 <= d'.nextTalent
      && (forall t :: t in d'.talents ==> 1 <= t < d'.nextTalent)
      && 1 <= d'.nextProject
      && (forall p :: p in d'.projects ==> 1 <= p < d'.nextProject && d'.projects[p].talent < d'.nextTalent)
  {
    var (d', id) := CreateTalent(d, caller, b).value;
    CreateKeepsRowsStep(d, caller, b, d', id);
  }

  /** The proof step of `CreateKeepsRows`, over the directory and id the
      handler answered; it states nothing beyond that lemma. */
  lemma CreateKeepsRowsStep(d: Directory, caller: int, b: NewTalent, d': Directory, id: int)
    requires Valid(d)
    requires CreateTalent(d, caller, b) == Ok((d', id))
    ensures 1 <= d'.nextTalent
    ensures forall t :: t in d'.talents ==> 1 <= t < d'.nextTalent
    ensures 1 <= d'.nextProject
    ensures forall p :: p in d'.projects ==> 1 <= p < d'.nextProject && d'.projects[p].talent < d'.nextTalent
  {
    assert id == d.nextTalent && d'.nextTalent == id + 1;
    assert (d'.projects, d'.nextProject) == AddProjects(d.projects, d.nextProject, id, b.projects);
    AddProjectsBounds(d.projects, d.nextProject, id, b.projects, id + 1, d'.projects, d'.nextProject);
  }

  /** The project rows keep their ids below the counter and their talent ids
      below `bound` when the new rows' owner is. */
  lemma AddProjectsBounds(projects: map<int, Project>, next: int, owner: int, ps: seq<ProjectInput>, bound: int,
                          m: map<int, Project>, n: int)
    requires 1 <= next
    requires forall p :: p in projects ==> 1 <= p < next && projects[p].talent < bound
    requires owner < bound
    requires (m, n) == AddProjects(projects, next, owner, ps)
    ensures 1 <= n
    ensures forall p :: p in m ==> 1 <= p < n && m[p].talent < bound
  {
    forall p | p in m ensures 1 <= p < n && m[p].talent < bound {
      AddProjectsAt(projects, next, owner, ps, p);
    }
  }

  /* ---------------------------------------------------------------- update */

  /** The body of PUT /:id. A tag list is `None` when absent; an empty list is
      present (an empty array is truthy) and clears the talent's tags. */
  datatype TalentPatch = TalentPatch(
    name: Option<string>,
    email: Option<string>,
    bio: Option<string>,
    location: Option<string>,
    linkedin: Option<string>,
    github: Option<string>,
    skills: Option<seq<string>>,
    languages: Option<seq<string>>)

  /** `given || prior` for a NOT NULL column. */
  function Pick(given: Option<string>, prior: string): (r: string)
    ensures Truthy(given) ==> r == given.value
    ensures !Truthy(given) ==> r == prior
  {
    if Truthy(given) then given.value else prior
  }

  /** `given || prior` for a nullable column. */
  function PickOpt(given: Option<string>, prior: Option<string>): (r: Option<string>)
    ensures Truthy(given) ==> r == given
    ensures !Truthy(given) ==> r == prior
  {
    if Truthy(given) then given else prior
  }

  /** The UPDATE statement's new row: each truthy field is written as given
      (PUT has no validators, so nothing is trimmed), every other column keeps
      its value, and the owner and verification flag never change. */
  function Merge(t: Talent, p: TalentPatch): (r: Talent)
    ensures r.owner == t.owner && r.verified == t.verified
    ensures r.name == if Truthy(p.name) then p.name.value else t.name
    ensures r.email == if Truthy(p.email) then p.email.value else t.email
    ensures r.bio == if Truthy(p.bio) then p.bio else t.bio
    ensures r.location == if Truthy(p.location) then p.location else t.location
    ensures r.linkedin == if Truthy(p.linkedin) then p.linkedin else t.linkedin
    ensures r.github == if Truthy(p.github) then p.github else t.github
  {
    t.(name := Pick(p.name, t.name), email := Pick(p.email, t.email),
       bio := PickOpt(p.bio, t.bio), location := PickOpt(p.location, t.location),
       linkedin := PickOpt(p.linkedin, t.linkedin), github := PickOpt(p.github, t.github))
  }

  /** An absent or empty field never clears a column: a patch of nothing but
      empty strings leaves the row as it was. */
  lemma EmptyFieldsKeepRow(t: Talent, skills: Option<seq<string>>, languages: Option<seq<string>>)
    ensures Merge(t, TalentPatch(Some(""), Some(""), Some(""), Some(""), Some(""), Some(""), skills, languages)) == t
    ensures Merge(t, TalentPatch(None, None, None, None, None, None, skills, languages)) == t
  {
  }

  /** Replaces the tags of `owner` by `names`, as the update handler does:
      delete the owner's links, then link each name. */
  function Relink(t: Tags.Table, links: set<Tags.Link>, owner: int, names: Option<seq<string>>): (r: (Tags.Table, set<Tags.Link>))
    ensures names.None? ==> r == (t, links)
    ensures Tags.Extends(t, r.0)
  {
    match names
    case None => (t, links)
    case Some(ns) => Tags.LinkAll(t, Tags.Unlink(links, owner), owner, ns)
  }

  /** PUT /:id by `caller`. */
  function UpdateTalent(d: Directory, caller: int, id: int, p: TalentPatch): (r: Result<Directory>)
    ensures r == Err(NotFound) <==> id !in d.talents
    ensures r == Err(Forbidden) <==> id in d.talents && d.talents[id].owner != Some(caller)
    ensures r.Ok? <==> id in d.talents && d.talents[id].owner == Some(caller)
    ensures r.Ok? ==>
      && id in d.talents
      && r.value.talents == d.talents[id := Merge(d.talents[id], p)]
      && r.value.nextTalent == d.nextTalent
      && r.value.projects == d.projects && r.value.nextProject == d.nextProject
      && r.value.favorites == d.favorites
    ensures r.Ok? && p.skills.None? ==> r.value.skills == d.skills && r.value.skillLinks == d.skillLinks
    ensures r.Ok? && p.languages.None? ==> r.value.languages == d.languages && r.value.languageLinks == d.languageLinks
  {
    if id !in d.talents then Err(NotFound)
    else if d.talents[id].owner != Some(caller) then Err(Forbidden)
    else
      var (sk, sl) := Relink(d.skills, d.skillLinks, id, p.skills);
      var (lg, ll) := Relink(d.languages, d.languageLinks, id, p.languages);
      Ok(d.(talents := d.talents[id := Merge(d.talents[id], p)],
            skills := sk, skillLinks := sl, languages := lg, languageLinks := ll))
  }

  /** Replacing tags: the owner ends with exactly the given names, every other
      owner keeps its names, and the links stay within the handed-out ids. */
  lemma RelinkNames(t: Tags.Table, links: set<Tags.Link>, owner: int, names: seq<string>, bound: int)
    requires Tags.Valid(t)
    requires forall l :: l in links ==> l.tag < t.next && l.owner < bound
    requires owner < bound
    ensures var r := Relink(t, links, owner, Some(names));
      && Tags.Valid(r.0)
      && Tags.Names(r.0, r.1, owner) == (set n | n in names)
      && (forall o :: o != owner ==> Tags.Names(r.0, r.1, o) == Tags.Names(t, links, o))
      && (forall l :: l in r.1 ==> l.tag < r.0.next && l.owner < bound)
  {
    var kept := Tags.Unlink(links, owner);
    Tags.LinkAllNames(t, kept, owner, names);
    Tags.LinkAllValid(t, kept, owner, names);
    Tags.LinkAllBounds(t, kept, owner, names, bound);
    forall o | o != owner
      ensures Tags.Names(Tags.LinkAll(t, kept, owner, names).0, Tags.LinkAll(t, kept, owner, names).1, o)
           == Tags.Names(t, links, o)
    {
      Tags.LinkAllKeepsOthers(t, kept, owner, names, o);
      assert Tags.Names(t, kept, o) == Tags.Names(t, links, o);
    }
  }

  /** A successful update replaces the talent's skill set exactly by the given
      names when a list is given, keeps it when none is, never touches another
      talent's tags, and keeps the invariant. Languages likewise. */
  lemma UpdateReplacesTags(d: Directory, caller: int, id: int, p: TalentPatch)
    requires Valid(d)
    requires UpdateTalent(d, caller, id, p).Ok?
    ensures var d' := UpdateTalent(d, caller, id, p).value;
      && Valid(d')
      && (p.skills.Some? ==> SkillNames(d', id) == set n | n in p.skills.value)
      && (p.skills.None? ==> SkillNames(d', id) == SkillNames(d, id))
      && (p.languages.Some? ==> LanguageNames(d', id) == set n | n in p.languages.value)
      && (p.languages.None? ==> LanguageNames(d', id) == LanguageNames(d, id))
      && (forall t :: t != id ==> SkillNames(d', t) == SkillNames(d, t))
      && (forall t :: t != id ==> LanguageNames(d', t) == LanguageNames(d, t))
  {
    if p.skills.Some? {
      RelinkNames(d.skills, d.skillLinks, id, p.skills.value, d.nextTalent);
    }
    if p.languages.Some? {
      RelinkNames(d.languages, d.languageLinks, id, p.languages.value, d.nextTalent);
    }
  }

  /** Sending the same update twice leaves the row as the first one did. */
  lemma MergeIdempotent(t: Talent, p: TalentPatch)
    ensures Merge(Merge(t, p), p) == Merge(t, p)
  {
  }

  /** What GET /:id shows after a successful PUT /:id: the merged row, with
      the same owner, the same verification and the same projects. */
  lemma UpdateThenEnrich(d: Directory, caller: int, id: int, p: TalentPatch)
    requires UpdateTalent(d, caller, id, p).Ok?
    ensures var d' := UpdateTalent(d, caller, id, p).value;
      && Enrich(d', id).Some?
      && Enrich(d', id).value.talent == Merge(d.talents[id], p)
      && Enrich(d', id).value.talent.owner == Some(caller)
      && Enrich(d', id).value.verified == Enrich(d, id).value.verified
      && Enrich(d', id).value.projects == Enrich(d, id).value.projects
  {
  }

  /* ---------------------------------------------------------------- delete */

  /** DELETE /:id by `caller`: removes the talent row and nothing else. */
  function DeleteTalent(d: Directory, caller: int, id: int): (r: Result<Directory>)
    ensures r == Err(NotFound) <==> id !in d.talents
    ensures r == Err(Forbidden) <==> id in d.talents && d.talents[id].owner != Some(caller)
    ensures r.Ok? <==> id in d.talents && d.talents[id].owner == Some(caller)
    ensures r.Ok? ==>
      && r.value.talents.Keys == d.talents.Keys - {id}
      && (forall t :: t in r.value.talents ==> r.value.talents[t] == d.talents[t])
      && r.value == d.(talents := r.value.talents)
    ensures r.Ok? && Valid(d) ==> Valid(r.value)
  {
    if id !in d.talents then Err(NotFound)
    else if d.talents[id].owner != Some(caller) then Err(Forbidden)
    else Ok(d.(talents := d.talents - {id}))
  }

  /* ------------------------------------------------------------- favorites */

  /** POST /:id/favorite by `user`. */
  function AddFavorite(d: Directory, user: int, id: int): (r: Result<Directory>)
    ensures r == Err(NotFound) <==> id !in d.talents
    ensures r.Ok? <==> id in d.talents
    ensures r.Ok? ==>
      && Favorite(user, id) in r.value.favorites
      && (forall f :: f in r.value.favorites <==> f in d.favorites || f == Favorite(user, id))
      && r.value == d.(favorites := r.value.favorites)
  {
    if id !in d.talents then Err(NotFound)
    else Ok(d.(favorites := d.favorites + {Favorite(user, id)}))
  }

  /** DELETE /:id/favorite by `user`: no existence check, never fails. */
  function RemoveFavorite(d: Directory, user: int, id: int): (r: Directory)
    ensures Favorite(user, id) !in r.favorites
    ensures forall f :: f in r.favorites <==> f in d.favorites && f != Favorite(user, id)
    ensures r == d.(favorites := r.favorites)
  {
    d.(favorites := d.favorites - {Favorite(user, id)})
  }

  /** GET /user/favorites: the ids of the existing talents `user` marked. */
  function FavoriteTalents(d: Directory, user: int): (ids: set<int>)
    ensures forall t :: t in ids <==> t in d.talents && Favorite(user, t) in d.favorites
  {
    set t | t in d.talents && Favorite(user, t) in d.favorites
  }

  /** Adding a favorite twice is adding it once; removing twice is removing
      once; adding then removing a new favorite restores the directory. */
  lemma FavoritesIdempotent(d: Directory, user: int, id: int)
    ensures AddFavorite(d, user, id).Ok? ==>
      AddFavorite(AddFavorite(d, user, id).value, user, id) == AddFavorite(d, user, id)
    ensures RemoveFavorite(RemoveFavorite(d, user, id), user, id) == RemoveFavorite(d, user, id)
    ensures AddFavorite(d, user, id).Ok? && Favorite(user, id) !in d.favorites ==>
      RemoveFavorite(AddFavorite(d, user, id).value, user, id) == d
  {
    if AddFavorite(d, user, id).Ok? && Favorite(user, id) !in d.favorites {
      assert d.favorites + {Favorite(user, id)} - {Favorite(user, id)} == d.favorites;
    }
  }

  /** A deleted talent drops out of every user's favorites listing although
      its favorite rows stay, and it can no longer be marked. */
  lemma DeletedTalentGone(d: Directory, caller: int, id: int, user: int)
    requires DeleteTalent(d, caller, id).Ok?
    ensures var d' := DeleteTalent(d, caller, id).value;
      && id !in FavoriteTalents(d', user)
      && d'.favorites == d.favorites
      && AddFavorite(d', user, id) == Err(NotFound)
      && Enrich(d', id).None?
  {
  }

  /* ---------------------------------------------------- reading a profile */

  /** A project as `getTalentProjects` returns it. */
  datatype ProjectInfo = ProjectInfo(title: string, description: Option<string>)

  /** The JSON object `enrichTalent` builds. */
  datatype Profile = Profile(
    id: int,
    talent: Talent,
    verified: bool,
    skills: set<string>,
    languages: set<string>,
    projects: map<int, ProjectInfo>)

  /** `enrichTalent`: no row gives null; otherwise the row with `verified`
      coerced to a boolean and its skills, languages and projects attached. */
  ghost function Enrich(d: Directory, id: int): (r: Option<Profile>)
    ensures r.None? <==> id !in d.talents
    ensures r.Some? ==>
      && r.value.id == id && r.value.talent == d.talents[id]
      && (r.value.verified <==> d.talents[id].verified != 0)
      && r.value.skills == SkillNames(d, id)
      && r.value.languages == LanguageNames(d, id)
      && (forall k :: k in r.value.projects <==> k in d.projects && d.projects[k].talent == id)
      && (forall k :: k in r.value.projects ==>
            r.value.projects[k] == ProjectInfo(d.projects[k].title, d.projects[k].description))
  {
    if id !in d.talents then None
    else
      var t := d.talents[id];
      Some(Profile(id, t, t.verified != 0, SkillNames(d, id), LanguageNames(d, id),
        map k | k in d.projects && d.projects[k].talent == id :: ProjectInfo(d.projects[k].title, d.projects[k].description)))
  }

  /** What POST / stores is what GET /:id shows: the trimmed fields, the caller
      as owner, not verified, the body's skills and languages as sets, and one
      project per body project. */
  lemma CreateThenEnrich(d: Directory, caller: int, b: NewTalent)
    requires Valid(d) && Acceptable(b)
    ensures var (d', id) := CreateTalent(d, caller, b).value;
      && Enrich(d', id).Some?
      && Enrich(d', id).value.talent == NewRecord(caller, b)
      && Enrich(d', id).value.talent.owner == Some(caller)
      && Enrich(d', id).value.talent.name == Trim(b.name)
      && !Enrich(d', id).value.verified
      && Enrich(d', id).value.skills == (set n | n in b.skills)
      && Enrich(d', id).value.languages == (set n | n in b.languages)
  {
    CreateTalentTags(d, caller, b);
  }

  /** The projects GET /:id shows for a new talent are the body's projects,
      under consecutive fresh ids in body order: id `k` is shown exactly when
      it is one of those, and then with the matching body project. */
  lemma CreateThenEnrichProjects(d: Directory, caller: int, b: NewTalent, k: int)
    requires Valid(d) && Acceptable(b)
    ensures var (d', id) := CreateTalent(d, caller, b).value;
      && Enrich(d', id).Some?
      && (k in Enrich(d', id).value.projects <==> d.nextProject <= k < d.nextProject + |b.projects|)
      && (d.nextProject <= k < d.nextProject + |b.projects| ==>
            Enrich(d', id).value.projects[k]
              == ProjectInfo(b.projects[k - d.nextProject].title, b.projects[k - d.nextProject].description))
  {
    CreateAddsProject(d, caller, b, k);
  }

  /** Project row `k` belongs to the new talent exactly when POST / added it,
      and then holds the matching body project. */
  lemma CreateAddsProject(d: Directory, caller: int, b: NewTalent, k: int)
    requires Valid(d) && Acceptable(b)
    ensures var (d', id) := CreateTalent(d, caller, b).value;
      && (k in d'.projects && d'.projects[k].talent == id <==> d.nextProject <= k < d.nextProject + |b.projects|)
      && (d.nextProject <= k < d.nextProject + |b.projects| ==>
            && k in d'.projects
            && d'.projects[k] == Project(id, b.projects[k - d.nextProject].title, b.projects[k - d.nextProject].description))
  {
    var (d', id) := CreateTalent(d, caller, b).value;
    CreateAddsProjectStep(d, caller, b, d', id, k);
  }

  /** The proof step of `CreateAddsProject`, over the directory and id the
      handler answered; it states nothing beyond that lemma. */
  lemma CreateAddsProjectStep(d: Directory, caller: int, b: NewTalent, d': Directory, id: int, k: int)
    requires Valid(d)
    requires CreateTalent(d, caller, b) == Ok((d', id))
    ensures k in d'.projects && d'.projects[k].talent == id <==> d.nextProject <= k < d.nextProject + |b.projects|
    ensures d.nextProject <= k < d.nextProject + |b.projects| ==>
      && k in d'.projects
      && d'.projects[k] == Project(id, b.projects[k - d.nextProject].title, b.projects[k - d.nextProject].description)
  {
    assert id == d.nextTalent && d'.projects == AddProjects(d.projects, d.nextProject, id, b.projects).0;
    AddProjectsOwned(d.projects, d.nextProject, id, b.projects, k);
  }

  /** POST / leaves every other talent's profile as it was: its row, its skills
      and languages, and its projects. */
  lemma CreateKeepsOtherProfiles(d: Directory, caller: int, b: NewTalent, t: int)
    requires Valid(d) && Acceptable(b)
    ensures var (d', id) := CreateTalent(d, caller, b).value;
      t != id ==> Enrich(d', t) == Enrich(d, t)
  {
    var (d', id) := CreateTalent(d, caller, b).value;
    if t != id {
      CreateTalentTags(d, caller, b);
      CreateKeepsOtherProfilesStep(d, caller, b, d', id, t);
    }
  }

  /** The proof step of `CreateKeepsOtherProfiles`, over the directory and id
      the handler answered; it states nothing beyond that lemma. */
  lemma CreateKeepsOtherProfilesStep(d: Directory, caller: int, b: NewTalent, d': Directory, id: int, t: int)
    requires Valid(d)
    requires CreateTalent(d, caller, b) == Ok((d', id))
    requires t != id
    requires SkillNames(d', t) == SkillNames(d, t) && LanguageNames(d', t) == LanguageNames(d, t)
    ensures Enrich(d', t) == Enrich(d, t)
  {
    assert id == d.nextTalent && d'.projects == AddProjects(d.projects, d.nextProject, id, b.projects).0;
    forall k ensures (k in d'.projects && d'.projects[k].talent == t <==> k in d.projects && d.projects[k].talent == t)
      && (k in d.projects && d.projects[k].talent == t ==> d'.projects[k] == d.projects[k])
    {
      AddProjectsKeepsOthers(d.projects, d.nextProject, id, b.projects, t, k);
    }
    SameRowsSameProfile(d, d', t);
  }

  /** Two directories that agree on a talent's row, its tags and its project
      rows give it the same profile. */
  lemma SameRowsSameProfile(d: Directory, d': Directory, t: int)
    requires t in d'.talents <==> t in d.talents
    requires t in d.talents ==> d'.talents[t] == d.talents[t]
    requires SkillNames(d', t) == SkillNames(d, t) && LanguageNames(d', t) == LanguageNames(d, t)
    requires forall k :: k in d'.projects && d'.projects[k].talent == t <==> k in d.projects && d.projects[k].talent == t
    requires forall k :: k in d.projects && d.projects[k].talent == t ==> d'.projects[k] == d.projects[k]
    ensures Enrich(d', t) == Enrich(d, t)
  {
    if t in d.talents {
      var e := Enrich(d', t).value.projects;
      var e0 := Enrich(d, t).value.projects;
      forall k ensures (k in e <==> k in e0) && (k in e ==> e[k] == e0[k]) {
        assert k in e <==> k in d'.projects && d'.projects[k].talent == t;
        assert k in e0 <==> k in d.projects && d.projects[k].talent == t;
      }
      assert e == e0;
    }
  }

  /** The project loop for `owner` leaves the rows of every other talent as
      they were, and gives that talent no new row. */
  lemma AddProjectsKeepsOthers(projects: map<int, Project>, next: int, owner: int, ps: seq<ProjectInput>, t: int, k: int)
    requires t != owner
    requires forall p :: p in projects ==> p < next
    ensures var m := AddProjects(projects, next, owner, ps).0;
      k in m && m[k].talent == t <==> k in projects && projects[k].talent == t
    ensures var m := AddProjects(projects, next, owner, ps).0;
      k in projects && projects[k].talent == t ==> m[k] == projects[k]
  {
    AddProjectsAt(projects, next, owner, ps, k);
  }

  /** When no existing row belongs to `owner`, the rows the project loop gives
      it are exactly the fresh ids, each holding the matching body project. */
  lemma AddProjectsOwned(projects: map<int, Project>, next: int, owner: int, ps: seq<ProjectInput>, k: int)
    requires forall p :: p in projects ==> projects[p].talent < owner
    ensures var m := AddProjects(projects, next, owner, ps).0;
      k in m && m[k].talent == owner <==> next <= k < next + |ps|
    ensures var m := AddProjects(projects, next, owner, ps).0;
      next <= k < next + |ps| ==> k in m && m[k] == Project(owner, ps[k - next].title, ps[k - next].description)
  {
    var m := AddProjects(projects, next, owner, ps).0;
    AddProjectsAt(projects, next, owner, ps, k);
    if k in m && !(next <= k < next + |ps|) {
      assert m[k] == projects[k];
    }
  }

  /* --------------------------------------------------------------- listing */

  /** The conditions GET / adds to its base query: `verified=true` (that exact
      string) keeps verified = 1, a truthy `skill` keeps the talents that have
      that skill, matched exactly. */
  ghost predicate Keeps(d: Directory, id: int, skill: Option<string>, verified: Option<string>)
  {
    && id in d.talents
    && (verified == Some("true") ==> d.talents[id].verified == 1)
    && (Truthy(skill) ==> skill.value in SkillNames(d, id))
  }

  /** `a` is `b` with some elements left out, order kept. */
  ghost predicate IsSubsequence(a: seq<int>, b: seq<int>)
    decreases |b|
  {
    |a| == 0 || (|b| > 0 && ((a[0] == b[0] && IsSubsequence(a[1..], b[1..])) || IsSubsequence(a, b[1..])))
  }

  /** Filters `base`, the ids the search, location and sort clauses of the
      query produce in their order. */
  ghost function Filter(d: Directory, base: seq<int>, skill: Option<string>, verified: Option<string>): (r: seq<int>)
    ensures IsSubsequence(r, base)
    ensures forall x :: multiset(r)[x] == if Keeps(d, x, skill, verified) then multiset(base)[x] else 0
    ensures forall i :: 0 <= i < |r| ==> Keeps(d, r[i], skill, verified)
    decreases |base|
  {
    if |base| == 0 then []
    else
      var rest := Filter(d, base[1..], skill, verified);
      assert base == [base[0]] + base[1..];
      if Keeps(d, base[0], skill, verified) then [base[0]] + rest else rest
  }

  /** GET /: the kept talents, in the base order, each enriched. Every listed
      profile is the one GET /:id shows, has the requested skill when one is
      given, and is verified when `verified=true` is. */
  ghost function ListTalents(d: Directory, base: seq<int>, skill: Option<string>, verified: Option<string>): (r: seq<Profile>)
    ensures |r| == |Filter(d, base, skill, verified)|
    ensures forall i :: 0 <= i < |r| ==>
      && r[i].id == Filter(d, base, skill, verified)[i]
      && Enrich(d, r[i].id) == Some(r[i])
    ensures forall i :: 0 <= i < |r| ==>
      && r[i].id in d.talents
      && (Truthy(skill) ==> skill.value in r[i].skills)
      && (verified == Some("true") ==> r[i].verified)
  {
    var ids := Filter(d, base, skill, verified);
    seq(|ids|, i requires 0 <= i < |ids| => Enrich(d, ids[i]).value)
  }

  /** A base row is listed exactly when it passes the filters. */
  lemma ListTalentsComplete(d: Directory, base: seq<int>, skill: Option<string>, verified: Option<string>, x: int)
    requires x in base
    ensures var r := ListTalents(d, base, skill, verified);
      Keeps(d, x, skill, verified) <==> exists i :: 0 <= i < |r| && r[i].id == x
  {
    var r := ListTalents(d, base, skill, verified);
    var ids := Filter(d, base, skill, verified);
    if Keeps(d, x, skill, verified) {
      assert multiset(base)[x] > 0;
      assert x in multiset(ids);
      var i :| 0 <= i < |ids| && ids[i] == x;
      assert r[i].id == x;
    }
  }

  /** With neither filter, GET / shows one profile per base row, in base order. */
  lemma ListTalentsUnfiltered(d: Directory, base: seq<int>, skill: Option<string>, verified: Option<string>)
    requires forall i :: 0 <= i < |base| ==> base[i] in d.talents
    requires !Truthy(skill) && verified != Some("true")
    ensures var r := ListTalents(d, base, skill, verified);
      && |r| == |base|
      && (forall i :: 0 <= i < |r| ==> r[i] == Enrich(d, base[i]).value)
  {
    NoFilterKeepsAll(d, base, skill, verified);
  }

  /** Without a skill filter and without `verified=true`, the listing keeps
      every base row. */
  lemma {:induction false} NoFilterKeepsAll(d: Directory, base: seq<int>, skill: Option<string>, verified: Option<string>)
    requires forall i :: 0 <= i < |base| ==> base[i] in d.talents
    requires !Truthy(skill) && verified != Some("true")
    ensures Filter(d, base, skill, verified) == base
    decreases |base|
  {
    if |base| > 0 {
      NoFilterKeepsAll(d, base[1..], skill, verified);
    }
  }
}
